=== FILE: README.md ===
# Market dashboard: watchlist, display rules and time labels

A Dafny model of the logic in a browser dashboard. The dashboard polls a quote
backend, keeps a user-curated watchlist of ticker symbols in the browser's
key-value store, renders stock cards, an index bar and an AI market summary,
and shows a curated social feed. Three pieces of it are modelled and proved:

- **The watchlist controller** (`watchlist.dfy`, with `text.dfy` for `trim`,
  `toUpperCase` and number rendering). The state is the in-memory symbol list
  together with what the store holds. `addStock` normalizes what was typed,
  while `addStockToWatchlist` (the suggestion chips) does not. `removeStock`
  takes the confirmation answer as a parameter. The initial load parses the
  stored entry.
- **The display rules** (`gateway.dfy`, `display.dfy`, `grouping.dfy`,
  `timelabels.dfy`). These cover:
  - what a fetch helper returns, and when it moves the "last update" time;
  - the sign rule (colour, arrow, `+`), including the inverted colour of the
    volatility instrument;
  - the watchlist's average change;
  - the index bar;
  - the comma grouping of the Bitcoin price;
  - the "last update" and "Updated … ago" labels.
- **The feed** (`feed.dfy`). It covers the relative-time label of an item,
  the featured/standard card class and the order-preserving rendering.

Times are integer milliseconds. For a positive divisor, Dafny's `/` is
`Math.floor` of the quotient, which is what the scripts compute. Prices and
percentages are `real`.

Behaviours of the code that a reader might not expect, all modelled as the
code has them:

- The initial load at app.js:5 throws on a stored entry that is not JSON; it
  does not fall back to the default list (`Watchlist.Load` returns `Err`).
- A stored empty array is truthy, so it is kept rather than replaced by the
  default list.
- Stored duplicates are kept. "No duplicates" is therefore a precondition on
  the loaded list that every operation preserves
  (`Watchlist.RunKeepsNoDuplicates`). It is not something `add` establishes.
- The default list is not written back at load time. So "store equals list"
  holds right after a stored array is loaded and after any write, but not
  after a fallback to the default list until the first write. Once it holds,
  it holds for good (`Watchlist.RunStaysSynced`).
- There is no single-flight guard on the timers, so none is modelled.
- An empty quote list shows the "Unable to load quotes" placeholder. No
  average is computed, so no sentinel value exists.
- The suggestion path does not trim or upper-case its symbol
  (`Watchlist.SuggestedKeepsCase`).
- A "last update" time in the future gives a negative count ("-3 sec ago").
  So does a summary time in the future. The feed instead shows "just now" for
  future items. Both are modelled as written.
- Quote prices are not grouped with commas. Only the Bitcoin price is grouped.

## Model

| member | source | states |
|---|---|---|
| Watchlist.Load | app.js:5 | the parse throws exactly on a malformed entry; a missing or falsy entry gives the default list; a stored array (empty included) is kept as is; loading writes nothing, so the state is synced exactly when an array was stored; the fallback default list has no duplicates |
| Watchlist.ReloadRestores | app.js:5 | a list the store holds comes back unchanged on the next load, the empty list included |
| Watchlist.Persist | app.js:279 | after `setItem(JSON.stringify(list))` the store holds exactly the list |
| Watchlist.Normalize | app.js:265 | trim then upper-case: empty exactly when the input is all whitespace; otherwise a non-empty symbol with no whitespace at either end and no lower-case ASCII letter; always equal to the trimmed input up to ASCII case |
| Watchlist.NormalizeEqualIff | app.js:265 | two inputs normalize to the same symbol exactly when their trimmed forms differ at most in the case of ASCII letters |
| Watchlist.NormalizeIdempotent | app.js:265 | normalizing an already normalized symbol changes nothing |
| Watchlist.AddStock | app.js:263-282 | blank input is refused exactly when it is all whitespace; a normalized symbol already present is refused; a refusal leaves list and store untouched; a duplicate is reported under the normalized symbol; otherwise the normalized symbol is appended at the end, the store equals the list, and a duplicate-free list stays duplicate-free |
| Watchlist.AddSuggested | app.js:285-294 | the same duplicate check without normalization: a present symbol changes nothing; a new one is appended at the end with the store equal to the list; the symbol is in the list afterwards; no duplicates are introduced |
| Watchlist.SecondSpellingIsDuplicate | app.js:265-276 | after adding one spelling, any input with the same normalized form is refused and leaves list and store as they were; for a non-blank spelling the refusal is a duplicate reported under the normalized second spelling |
| Watchlist.NvdaThenNvdaIsDuplicate | app.js:265-276 | typing "nvda" and then "NVDA" reports "NVDA" as a duplicate |
| Watchlist.SuggestedKeepsCase | app.js:285-292 | the suggestion path stores "nvda" as given, where the input box stores "NVDA" |
| Watchlist.Without | app.js:299 | the filter removes every occurrence of the symbol, keeps every other symbol with its number of occurrences, and shortens the list by exactly the removed count |
| Watchlist.WithoutIsSubsequence | app.js:299 | the filter keeps the surviving symbols in their original relative order |
| Watchlist.WithoutKeepsNoDuplicates | app.js:299 | filtering a duplicate-free list leaves it duplicate-free |
| Watchlist.Remove | app.js:297-303 | without confirmation nothing changes; with confirmation the symbol no longer occurs, other symbols keep their counts and order, and the store equals the list; no duplicates are introduced |
| Watchlist.Apply | app.js:263-303 | one user action: a declined removal changes nothing; a confirmed one leaves the symbol absent and the store equal to the list; typed input changes nothing exactly when it is blank or its normalized symbol is already listed, and a chip exactly when its symbol is already listed; otherwise the (normalized, for typed input) symbol is appended with the store equal to the list; no duplicates are introduced |
| Watchlist.ApplyUnchangedOrSynced | app.js:263-303 | every user action either leaves the state exactly as it was or leaves the store holding the list |
| Watchlist.RunKeepsNoDuplicates | app.js:263-303 | over any sequence of adds and removes, a duplicate-free list stays duplicate-free |
| Watchlist.RunUnchangedOrSynced | app.js:263-303 | over any sequence of actions the store is either untouched or holds exactly the in-memory list |
| Watchlist.RunStaysSynced | app.js:263-303 | once the store holds the list, every later action keeps it so |
| Watchlist.Run | app.js:263-303 | the actions applied first to last; when none of them is a removal, the old list is a prefix of the new one, so the list only grows at its end |
| Watchlist.RunAppend | app.js:263-303 | running two batches of actions one after the other is running them as one batch |
| Text.ContentStart | app.js:265 | the scan from the front stops at the first character that is not whitespace, or at the end; everything it passes is whitespace |
| Text.ContentEnd | app.js:265 | the scan from the back stops just past the last character that is not whitespace, or at the start; everything it passes is whitespace |
| Text.Trim | app.js:265 | the result sits inside the input with only whitespace around it, and neither of its ends is whitespace |
| Text.TrimEmptyIff | app.js:265-267 | trimming gives the empty string exactly when the input is all whitespace |
| Text.ToUpper | app.js:265 | same length; each lower-case ASCII letter becomes the capital of the same letter; every other character is kept; no lower-case ASCII letter is left |
| Text.ToUpperEqualIff | app.js:265 | two strings upper-case to the same string exactly when they differ at most in the case of ASCII letters |
| Text.NatToString | app.js:314 | a number renders as at least one digit and has no leading zero |
| Text.ParseNatToString | app.js:314 | reading a rendered number back gives the number |
| Text.IntToString | app.js:314 | a non-negative number renders as digits that read back as the number; a negative one as `-` followed by digits that read back as its magnitude; neither has a leading zero, except "0" itself |
| Text.IntToStringInjective | app.js:314 | distinct counts render as distinct text |
| Gateway.Fetch | app.js:48-95 | data comes back exactly on a successful readable response, with no partial result; a missing payload reads as empty; the new "last update" time is the body's stamp when a successful body carries one, and the old time otherwise |
| Gateway.FetchQuotes | app.js:48-71 | `null` exactly on a transport error, a non-ok status or an unreadable body; on success the quotes, or the empty list when the body has none; the "last update" time as for `Gateway.Fetch` |
| Gateway.FetchIndices | app.js:74-95 | the same for the indices endpoint, with the empty map when the body has no indices |
| Gateway.FailureKeepsLastUpdate | app.js:53-56 | a failed fetch returns nothing and leaves the "last update" time as it was |
| Gateway.LastUpdateAfter | app.js:61-63 | the "last update" time after a run of polls: once there is a time it is never lost, and polls carrying no stamp leave it as it was |
| Gateway.LastUpdateAfterSnoc | app.js:61-63 | handling one more poll of either kind sets the "last update" time to that poll's stamp if it carries one, and otherwise keeps the time reached before |
| Gateway.LastUpdateIsLatestStamp | app.js:61-63 | after any run of quotes and indices polls, the "last update" time is the stamp of the latest successful response carrying one, or the starting time when none did |
| Display.SignalFor | app.js:119-121 | green, up arrow and a `+` exactly when the change is at least zero, so zero counts as a rise; otherwise red, down arrow and no sign |
| Display.SignalOnlySeesSign | app.js:119-121 | two changes get the same signal exactly when they fall on the same side of zero |
| Display.CardFor | app.js:118-139 | a card shows the quote's symbol, name, price and change, with the sign rule's colour, arrow and prefix for that change |
| Display.Sum | app.js:110 | the `reduce` of the changes from the left, starting at 0; what it promises is stated by `Display.SumSplit`, `Display.SumNonNegative` and `Display.SumWithin` |
| Display.SumSplit | app.js:110 | the sum over a concatenation is the sum of the two parts |
| Display.SumNonNegative | app.js:110 | changes that are all at least zero have a sum that is at least zero |
| Display.Mean | app.js:110 | the average times the number of quotes is the sum of the changes |
| Display.SumWithin | app.js:110 | if every change lies in [lo, hi], the sum lies between lo and hi times the count |
| Display.MeanWithin | app.js:110 | the average lies between any lower and upper bound of the changes |
| Display.MeanExample | app.js:110 | changes of +2 and -4 average to -1 |
| Display.WatchlistPanelFor | app.js:102-140 | a placeholder exactly when the fetch failed or gave no quotes; otherwise the average (average times count equals the sum), the header signal of that average, and one card per quote in order |
| Display.AllUpMeansHeaderUp | app.js:110-115 | when every change is at least zero the header is green |
| Display.TransportErrorShowsPlaceholder | app.js:102-107 | a transport failure ends in the placeholder, not an empty card list |
| Display.SuggestionsPanelFor | app.js:144-173 | a placeholder exactly when the fetch failed or was empty; otherwise one chip per quote in order with its symbol, change and the sign rule's signal |
| Display.ChangeTickerFor | app.js:184-199 | the broad-market slots show the change with the sign rule's colour, arrow and prefix |
| Display.VolatilityTickerFor | app.js:202-208 | the volatility slot shows the price, red exactly when the change is at least zero, with the sign rule's arrow: up exactly then, down when the change is negative |
| Display.BitcoinTickerFor | app.js:211-217 | the Bitcoin slot holds the price as grouped whole dollars (the regex's commas in the rounded price), whose commas deleted give the rounded whole-dollar digits; the colour follows the sign rule and the arrow is the sign rule's, down when the change is negative |
| Display.DollarText | app.js:216 | the template `$${amount} ${arrow}`: a dollar sign, the amount unchanged, a space and the arrow, three characters longer than the amount |
| Display.BitcoinText | app.js:216 | the Bitcoin slot's text holds the ticker's amount between `$` and a space, and ends with the ticker's arrow |
| Display.BitcoinTextShape | app.js:216 | the Bitcoin slot reads `$`, the grouped whole-dollar price, a space and the sign rule's arrow: up exactly when the change is at least zero, down otherwise |
| Display.VolatilityColourInverted | app.js:187-207 | for the same change, the volatility slot's colour is the opposite of a broad-market slot's, and the arrows agree |
| Display.VolatilityRiseIsRed | app.js:205-206 | a +3.5% volatility move is shown red |
| Display.IndexBarFor | app.js:176-218 | a failed fetch leaves the bar untouched; each slot is rewritten exactly when its instrument is in the payload, with that instrument's rule |
| Display.IndexFetchFailureKeepsBar | app.js:74-95 | through the indices fetch, the bar is left untouched exactly when the fetch failed; a successful body without indices rewrites no slot |
| Grouping.Chunks | app.js:216 | a digit string splits into groups whose first has one to three digits and every later one exactly three, concatenating back to the digits |
| Grouping.GroupStep | app.js:216 | a number longer than three digits renders as the grouping of all but its last three digits, a comma, then those three digits |
| Grouping.GroupMatchesRegex | app.js:216 | the grouping equals the regex reading: a comma before each non-initial digit whose remaining digit count is a multiple of three |
| Grouping.GroupRoundTrip | app.js:216 | deleting the commas gives the digits back; there are (n-1)/3 commas for n digits; the text starts and ends with a digit |
| Grouping.RemoveCommasAppend | app.js:216 | deleting commas from two joined strings deletes them from each part |
| Grouping.RoundWhole | app.js:216 | `toFixed(0)` picks the whole number within one half of the price, with a tie rounding the magnitude up |
| Grouping.WholeWithCommas | app.js:216 | the text is the sign for a negative price followed by the regex's comma insertion into the rounded magnitude's digits; with its commas deleted it is the sign followed by those digits |
| Grouping.GroupExample | app.js:216 | 104250 renders as "104,250" |
| TimeLabels.LastUpdateLabel | app.js:306-326 | no time gives "updating..."; under 60 s the floor of the seconds; from 60 s to under an hour the floor of the minutes (1 to 59); from an hour on the clock time of the update |
| TimeLabels.LastUpdateText | app.js:313-324 | "updating..." when there is no time; the count's digits followed by " sec ago" or " min ago"; otherwise the locale's clock text |
| TimeLabels.LastUpdateLabelMonotone | app.js:309-322 | as time passes the label never moves back: a clock time stays a clock time, a minutes label becomes a clock time or a minutes label with no smaller count, and while the label stays in seconds its count never decreases |
| TimeLabels.LastUpdateTextInjective | app.js:313-324 | apart from the clock time, the texts "updating...", "N sec ago" and "N min ago" never coincide for different labels |
| TimeLabels.SummaryAgeFor | app.js:242-250 | under an hour the floor of the minutes; from then on the floor of the hours, at least 1 |
| TimeLabels.SummaryAgeText | app.js:247-250 | "Updated ", then the count's digits, then " min ago" for minutes, " hour ago" for one hour and " hours ago" for more |
| TimeLabels.SummaryAgeTextInjective | app.js:247-250 | the texts "Updated N min ago", "Updated 1 hour ago" and "Updated N hours ago" never coincide for different ages |
| TimeLabels.OneHourIsSingular | app.js:249-250 | between one and two hours the label is "Updated 1 hour ago" |
| TimeLabels.TwoHoursArePlural | app.js:249-250 | from two hours on the label says "hours" |
| TimeLabels.SummaryPanelFor | app.js:221-259 | the summary is shown exactly when the response succeeded with a non-empty summary; the age is written exactly when a summary is shown and the response carries a time |
| TimeLabels.SummaryShownWithMinutes | app.js:237-247 | a non-empty summary updated n whole minutes ago, under an hour, is shown with the text "Updated n min ago" |
| TimeLabels.SummaryShownWithHours | app.js:237-250 | a non-empty summary updated h whole hours ago, from an hour on, is shown with "Updated h hour ago" for h = 1 and "Updated h hours ago" after |
| Feed.RelativeTime | tweets.js:58-72 | under a minute, future times included, "just now"; then whole minutes 1 to 59; then whole hours 1 to 23; then whole days, at least 1; the four buckets cover every difference, each exactly once |
| Feed.RelativeText | tweets.js:64-71 | "just now" for the youngest bucket; otherwise the count's digits, the unit letter (`m`, `h` or `d`) and " ago" |
| Feed.RelativeTextInjective | tweets.js:64-71 | the label texts "just now", "Nm ago", "Nh ago" and "Nd ago" never coincide for different labels, so the text gives the label back |
| Feed.RelativeTimeMonotone | tweets.js:58-72 | an older item never gets a younger bucket or a smaller count in the same bucket |
| Feed.CardFor | tweets.js:82-84 | class `featured` and the FEATURED badge exactly for a featured item; `standard` and no badge otherwise; the label is that item's relative time |
| Feed.RenderFeed | tweets.js:81-99 | one card per item, same length and order, each card featured exactly when its item is |
| Feed.UpdateTimes | tweets.js:115-128 | each card with a matching item gets its label recomputed and nothing else changes; cards beyond the items are left alone |
| Feed.RefreshIsRerender | tweets.js:115-128 | refreshing the labels of a rendered feed gives the feed rendered at the new time |

## Left out

- Network I/O (`fetch`, `response.json()`) is replaced by an abstract response value. Each fetch helper is a pure function of it.
- DOM writes, `innerHTML` templates, `alert` and `confirm` are left out. So are clearing the input box and the `if (!pulseSection)` / `timeElement` presence checks. The fields a template interpolates are returned instead, and `confirm` becomes a parameter.
- The `localStorage` calls are replaced by the `persisted` field of the watchlist state.
- The re-render and re-fetch that `loadWatchlist()` starts after an add or remove are left out. They are asynchronous I/O.
- Timer scheduling (`setInterval`, both refresh periods and the one-second label tick) is left out. The code has no single-flight guard, so none is modelled.
- Google Analytics click tracking and the static feed data are left out.
- `toFixed(2)` and `toFixed(1)` formatting of prices and percentages is left out. These values stay `real`.
- `toLocaleTimeString` is left out. It becomes the `clock` text parameter of `TimeLabels.LastUpdateText`.
- `Date` parsing is left out. Times arrive as integer milliseconds, so an invalid date string (a `NaN` time) is not modelled.
- Display.Mean: uses exact `real` arithmetic, not IEEE doubles, so rounding in the sum is not modelled.
- Text.ToUpper: upper-cases the ASCII letters only. JavaScript's full Unicode case mapping (for example `ß` to `SS`) is not modelled.
- Grouping.WholeWithCommas: models `toFixed(0)` for every real, but JavaScript switches to exponent notation from 1e21 on. That case is not modelled.
- Watchlist.Persist: `localStorage.setItem` is assumed to succeed. A write that throws (a full or disabled store) is not modelled, so the sync properties hold only under that assumption; likewise `getItem` is assumed not to throw at load time.
- Watchlist.Load: a stored value that is truthy JSON but not an array of strings (an object, a number, an array of numbers) is not modelled.

=== FILE: common.dfy ===
/** Small shared datatypes: a value that may be absent (JavaScript's
    `null`/`undefined` in the dashboard scripts), and the outcome of an
    operation that can throw. */
module Common {

  datatype Option<+T> = None | Some(value: T)

  datatype Result<+T, +E> = Ok(value: T) | Err(error: E)
}

=== FILE: display.dfy ===
/** The render rules of `app.js`: the sign rule shared by every card and
    ticker, the watchlist's average change, the suggestion chips and the index
    bar. Markup is replaced by the fields the templates interpolate; prices
    and percentages stay `real` (their two-decimal formatting is not modelled). */
module Display {

  import opened Common
  import opened Gateway
  import Grouping
  import Text

  datatype Colour = Green | Red  // `text-green-400` / `text-red-400`

  const UpArrow: char := '\U{2191}'
  const DownArrow: char := '\U{2193}'

  /** Colour, arrow and sign prefix shown next to a change. */
  datatype Signal = Signal(colour: Colour, arrow: char, prefix: string)

  /** The sign rule `changePercent >= 0`: zero counts as a rise. */
  function SignalFor(change: real): (s: Signal)
    ensures s.colour == Green <==> change >= 0.0
    ensures s.arrow == UpArrow <==> change >= 0.0
    ensures s.arrow == UpArrow || s.arrow == DownArrow
    ensures s.prefix == "+" <==> change >= 0.0
    ensures s.prefix == "" <==> change < 0.0
  {
    if change >= 0.0 then Signal(Green, UpArrow, "+") else Signal(Red, DownArrow, "")
  }

  /** The signal depends on the sign of the change and on nothing else. */
  lemma SignalOnlySeesSign(x: real, y: real)
    ensures SignalFor(x) == SignalFor(y) <==> (x >= 0.0 <==> y >= 0.0)
  {
  }

  function Opposite(c: Colour): Colour {
    if c == Green then Red else Green
  }

  /** A watchlist card. */
  datatype StockCard = StockCard(symbol: string, name: string, price: real, changePercent: real, signal: Signal)

  function CardFor(q: Quote): (c: StockCard)
    ensures c.symbol == q.symbol && c.name == q.name && c.price == q.price
    ensures c.changePercent == q.changePercent
    ensures c.signal == SignalFor(q.changePercent)
    ensures c.signal.colour == Green <==> q.changePercent >= 0.0
  {
    StockCard(q.symbol, q.name, q.price, q.changePercent, SignalFor(q.changePercent))
  }

  /** `quotes.reduce((sum, q) => sum + q.changePercent, 0)`. */
  function Sum(qs: seq<Quote>): real {
    if qs == [] then 0.0 else Sum(qs[..|qs| - 1]) + qs[|qs| - 1].changePercent
  }

  /** The sum over a concatenation is the sum of the two parts. */
  lemma {:induction false} SumSplit(a: seq<Quote>, b: seq<Quote>)
    ensures Sum(a + b) == Sum(a) + Sum(b)
    decreases |b|
  {
    if b == [] {
      assert a + b == a;
    } else {
      var front := b[..|b| - 1];
      assert (a + b)[..|a + b| - 1] == a + front;
      assert (a + b)[|a + b| - 1] == b[|b| - 1];
      SumSplit(a, front);
    }
  }

  /** The sum of changes that are all flat or up is not negative. */
  lemma {:induction false} SumNonNegative(qs: seq<Quote>)
    requires forall i :: 0 <= i < |qs| ==> 0.0 <= qs[i].changePercent
    ensures 0.0 <= Sum(qs)
    decreases |qs|
  {
    if qs != [] {
      SumNonNegative(qs[..|qs| - 1]);
    }
  }

  /** The average change over a non-empty quote list. */
  function Mean(qs: seq<Quote>): (m: real)
    requires qs != []
    ensures m * (|qs| as real) == Sum(qs)
  {
    Sum(qs) / (|qs| as real)
  }

  /** If every change lies in [lo, hi], so does their sum scaled by the count. */
  lemma {:induction false} SumWithin(qs: seq<Quote>, lo: real, hi: real)
    requires forall i :: 0 <= i < |qs| ==> lo <= qs[i].changePercent <= hi
    ensures lo * (|qs| as real) <= Sum(qs) <= hi * (|qs| as real)
    decreases |qs|
  {
    if qs != [] {
      var front := qs[..|qs| - 1];
      SumWithin(front, lo, hi);
      assert (|qs| as real) == (|front| as real) + 1.0;
    }
  }

  /** The average lies between the smallest and the largest change. */
  lemma MeanWithin(qs: seq<Quote>, lo: real, hi: real)
    requires qs != []
    requires forall i :: 0 <= i < |qs| ==> lo <= qs[i].changePercent <= hi
    ensures lo <= Mean(qs) <= hi
  {
    SumWithin(qs, lo, hi);
    var n := |qs| as real;
    var m := Mean(qs);
    assert lo * n <= m * n <= hi * n;
    CancelScale(lo, m, n);
    CancelScale(m, hi, n);
  }

  lemma ScaleStrict(a: real, b: real, n: real)
    requires a < b && n > 0.0
    ensures a * n < b * n
  {
    assert (b - a) * n > 0.0;
  }

  lemma CancelScale(a: real, b: real, n: real)
    requires n > 0.0 && a * n <= b * n
    ensures a <= b
  {
    if a > b {
      ScaleStrict(b, a, n);
    }
  }

  /** Changes of +2 and -4 average to -1. */
  lemma MeanExample(a: Quote, b: Quote)
    requires a.changePercent == 2.0 && b.changePercent == -4.0
    ensures Mean([a, b]) == -1.0
  {
    assert [a, b][..1] == [a];
    assert [a][..0] == [];
    assert Sum([a]) == 2.0;
    assert Sum([a, b]) == -2.0;
  }

  /** The watchlist section: a placeholder when the fetch failed or returned no
      quotes, otherwise the average-change header and one card per quote. */
  datatype WatchlistPanel =
    | QuotesUnavailable
    | QuotesShown(average: real, header: Signal, cards: seq<StockCard>)

  function WatchlistPanelFor(fetched: Option<seq<Quote>>): (r: WatchlistPanel)
    ensures r.QuotesUnavailable? <==> fetched.None? || fetched.value == []
    ensures r.QuotesShown? ==>
      && r.average * (|fetched.value| as real) == Sum(fetched.value)
      && r.header == SignalFor(r.average)
      && |r.cards| == |fetched.value|
      && (forall i :: 0 <= i < |r.cards| ==> r.cards[i] == CardFor(fetched.value[i]))
  {
    if fetched.None? || fetched.value == [] then QuotesUnavailable
    else
      var qs := fetched.value;
      var average := Mean(qs);
      QuotesShown(average, SignalFor(average), seq(|qs|, i requires 0 <= i < |qs| => CardFor(qs[i])))
  }

  /** When every quote is flat or up, the header shows a rise. */
  lemma AllUpMeansHeaderUp(qs: seq<Quote>)
    requires qs != []
    requires forall i :: 0 <= i < |qs| ==> 0.0 <= qs[i].changePercent
    ensures WatchlistPanelFor(Some(qs)).header.colour == Green
  {
    SumNonNegative(qs);
    var n := |qs| as real;
    var m := Mean(qs);
    if m < 0.0 {
      ScaleStrict(m, 0.0, n);
    }
  }

  /** A transport failure ends in the placeholder, not an empty card list. */
  lemma TransportErrorShowsPlaceholder(lastUpdate: Option<int>)
    ensures WatchlistPanelFor(FetchQuotes(TransportError, lastUpdate).data) == QuotesUnavailable
  {
  }

  /** A suggestion chip (one decimal place in the page). */
  datatype Chip = Chip(symbol: string, changePercent: real, signal: Signal)

  datatype SuggestionsPanel = SuggestionsUnavailable | ChipsShown(chips: seq<Chip>)

  /** `loadSuggestedStocks`: the same placeholder rule and sign rule as the
      watchlist, without an average. */
  function SuggestionsPanelFor(fetched: Option<seq<Quote>>): (r: SuggestionsPanel)
    ensures r.SuggestionsUnavailable? <==> fetched.None? || fetched.value == []
    ensures r.ChipsShown? ==>
      && |r.chips| == |fetched.value|
      && (forall i :: 0 <= i < |r.chips| ==>
            && r.chips[i].symbol == fetched.value[i].symbol
            && r.chips[i].changePercent == fetched.value[i].changePercent
            && r.chips[i].signal == SignalFor(fetched.value[i].changePercent)
            && (r.chips[i].signal.colour == Green <==> fetched.value[i].changePercent >= 0.0))
  {
    if fetched.None? || fetched.value == [] then SuggestionsUnavailable
    else
      var qs := fetched.value;
      ChipsShown(seq(|qs|, i requires 0 <= i < |qs| => Chip(qs[i].symbol, qs[i].changePercent, SignalFor(qs[i].changePercent))))
  }

  /** One slot of the index bar. */
  datatype Ticker =
    | ChangeTicker(signal: Signal, changePercent: real)  // SPY, QQQ: signed percent and arrow
    | VolatilityTicker(colour: Colour, price: real, arrow: char)  // UVXY: price and arrow
    | BitcoinTicker(colour: Colour, amount: string, arrow: char)  // BTC/USD: grouped whole dollars and arrow

  function ChangeTickerFor(q: IndexQuote): (t: Ticker)
    ensures t.ChangeTicker? && t.changePercent == q.changePercent
    ensures t.signal == SignalFor(q.changePercent)
    ensures t.signal.colour == Green <==> q.changePercent >= 0.0
  {
    ChangeTicker(SignalFor(q.changePercent), q.changePercent)
  }

  /** UVXY: rising volatility is adverse, so the colour is inverted; the arrow
      still follows the raw sign. */
  function VolatilityTickerFor(q: IndexQuote): (t: Ticker)
    ensures t.VolatilityTicker? && t.price == q.price
    ensures t.colour == Red <==> q.changePercent >= 0.0
    ensures t.arrow == SignalFor(q.changePercent).arrow
    ensures t.arrow == UpArrow <==> q.changePercent >= 0.0
  {
    var s := SignalFor(q.changePercent);
    VolatilityTicker(Opposite(s.colour), q.price, s.arrow)
  }

  /** `$${amount} ${arrow}`. */
  function DollarText(amount: string, arrow: char): (text: string)
    ensures |text| == |amount| + 3 && text[1..|text| - 2] == amount
    ensures text[0] == '$' && text[|text| - 2] == ' ' && text[|text| - 1] == arrow
  {
    var text := "$" + amount + " " + [arrow];
    assert text[1..|text| - 2] == amount;
    text
  }

  /** BTC/USD: the price as whole dollars with commas, the colour and arrow of
      the sign rule. */
  function BitcoinTickerFor(q: IndexQuote): (t: Ticker)
    ensures t.BitcoinTicker?
    ensures t.colour == Green <==> q.changePercent >= 0.0
    ensures t.arrow == SignalFor(q.changePercent).arrow
    ensures t.arrow == UpArrow <==> q.changePercent >= 0.0
    ensures t.amount == Grouping.WholeWithCommas(q.price)
    ensures Grouping.RemoveCommas(t.amount)
         == (if q.price < 0.0 then "-" else "") + Text.NatToString(Grouping.Magnitude(Grouping.RoundWhole(q.price)))
  {
    var s := SignalFor(q.changePercent);
    BitcoinTicker(s.colour, Grouping.WholeWithCommas(q.price), s.arrow)
  }

  /** The text the Bitcoin slot shows, `$${amount} ${arrow}`. */
  function BitcoinText(t: Ticker): (text: string)
    requires t.BitcoinTicker?
    ensures |text| == |t.amount| + 3 && text[0] == '$' && text[|text| - 2] == ' '
    ensures text[1..|text| - 2] == t.amount && text[|text| - 1] == t.arrow
  {
    DollarText(t.amount, t.arrow)
  }

  /** The Bitcoin slot reads `$`, the grouped price, a space and the arrow. */
  lemma BitcoinTextShape(q: IndexQuote)
    ensures var text := BitcoinText(BitcoinTickerFor(q));
      && |text| >= 3 && text[0] == '$' && text[|text| - 2] == ' '
      && text[1..|text| - 2] == Grouping.WholeWithCommas(q.price)
      && text[|text| - 1] == SignalFor(q.changePercent).arrow
      && (text[|text| - 1] == UpArrow <==> q.changePercent >= 0.0)
  {
    var t := BitcoinTickerFor(q);
    assert t.amount == Grouping.WholeWithCommas(q.price);
    assert t.arrow == SignalFor(q.changePercent).arrow;
  }

  /** The volatility slot and a broad-market slot showing the same change
      disagree on colour and agree on the arrow. */
  lemma VolatilityColourInverted(q: IndexQuote)
    ensures VolatilityTickerFor(q).colour != ChangeTickerFor(q).signal.colour
    ensures VolatilityTickerFor(q).arrow == ChangeTickerFor(q).signal.arrow
  {
  }

  /** UVXY up 3.5% shows the adverse colour. */
  lemma VolatilityRiseIsRed(price: real)
    ensures VolatilityTickerFor(IndexQuote(price, 3.5)).colour == Red
  {
  }

  /** The four slots of the bar; `None` leaves a slot as it was. */
  datatype IndexBar = IndexBar(spx: Option<Ticker>, ndx: Option<Ticker>, vix: Option<Ticker>, btc: Option<Ticker>)

  function Slot(m: map<string, IndexQuote>, key: string, render: IndexQuote -> Ticker): Option<Ticker> {
    if key in m then Some(render(m[key])) else None
  }

  /** `loadMarketIndices`: a failed fetch leaves the whole bar as it was; each
      slot is rewritten exactly when its instrument is in the payload. */
  function IndexBarFor(fetched: Option<map<string, IndexQuote>>): (r: Option<IndexBar>)
    ensures r.None? <==> fetched.None?
    ensures r.Some? ==>
      && (r.value.spx.Some? <==> "SPY" in fetched.value)
      && (r.value.ndx.Some? <==> "QQQ" in fetched.value)
      && (r.value.vix.Some? <==> "UVXY" in fetched.value)
      && (r.value.btc.Some? <==> "BTC/USD" in fetched.value)
    ensures r.Some? && "SPY" in fetched.value ==> r.value.spx == Some(ChangeTickerFor(fetched.value["SPY"]))
    ensures r.Some? && "QQQ" in fetched.value ==> r.value.ndx == Some(ChangeTickerFor(fetched.value["QQQ"]))
    ensures r.Some? && "UVXY" in fetched.value ==> r.value.vix == Some(VolatilityTickerFor(fetched.value["UVXY"]))
    ensures r.Some? && "BTC/USD" in fetched.value ==> r.value.btc == Some(BitcoinTickerFor(fetched.value["BTC/USD"]))
  {
    match fetched
    case None => None
    case Some(m) =>
      Some(IndexBar(
        Slot(m, "SPY", ChangeTickerFor),
        Slot(m, "QQQ", ChangeTickerFor),
        Slot(m, "UVXY", VolatilityTickerFor),
        Slot(m, "BTC/USD", BitcoinTickerFor)))
  }

  /** `fetchMarketIndices` feeding `loadMarketIndices`: a failed fetch leaves
      every slot as it was, and a successful body without `indices` rewrites
      no slot either. */
  lemma IndexFetchFailureKeepsBar(resp: Response<map<string, IndexQuote>>, lastUpdate: Option<int>)
    ensures IndexBarFor(FetchIndices(resp, lastUpdate).data).None? <==> !Succeeded(resp)
    ensures Succeeded(resp) && resp.body.payload.None? ==>
      IndexBarFor(FetchIndices(resp, lastUpdate).data) == Some(IndexBar(None, None, None, None))
  {
  }
}

=== FILE: feed.dfy ===
/** The social feed of `tweets.js`: the relative-time label of each item and
    the card each item is rendered as. The item data itself is static and
    not modelled; times are integer milliseconds. */
module Feed {

  import Text

  datatype Relative = JustNow | MinutesAgo(n: int) | HoursAgo(n: int) | DaysAgo(n: int)

  const MinuteMs: int := 60000
  const HourMs: int := 3600000
  const DayMs: int := 86400000

  /** `getRelativeTime` applied to `now - timestamp`. Under a minute, a time in
      the future included, is "just now"; the buckets split the integers. */
  function RelativeTime(diffMs: int): (r: Relative)
    ensures r.JustNow? <==> diffMs < MinuteMs
    ensures r.MinutesAgo? <==> MinuteMs <= diffMs < HourMs
    ensures r.HoursAgo? <==> HourMs <= diffMs < DayMs
    ensures r.DaysAgo? <==> DayMs <= diffMs
    ensures r.MinutesAgo? ==> 1 <= r.n < 60 && r.n * MinuteMs <= diffMs < (r.n + 1) * MinuteMs
    ensures r.HoursAgo? ==> 1 <= r.n < 24 && r.n * HourMs <= diffMs < (r.n + 1) * HourMs
    ensures r.DaysAgo? ==> 1 <= r.n && r.n * DayMs <= diffMs < (r.n + 1) * DayMs
  {
    var diffMins := diffMs / 60000;
    if diffMins < 1 then JustNow
    else if diffMins < 60 then MinutesAgo(diffMins)
    else
      var diffHours := diffMins / 60;
      if diffHours < 24 then HoursAgo(diffHours)
      else DaysAgo(diffHours / 24)
  }

  /** The label's text: "just now", or the count, the unit letter and " ago". */
  function RelativeText(r: Relative): (t: string)
    ensures r.JustNow? ==> t == "just now"
    ensures |t| >= 5 && t[|t| - 5] == UnitChar(r)
    ensures !r.JustNow? ==> t[..|t| - 5] == Text.IntToString(r.n) && t[|t| - 4..] == " ago"
  {
    match r
    case JustNow => "just now"
    case MinutesAgo(n) => Counted(n, 'm')
    case HoursAgo(n) => Counted(n, 'h')
    case DaysAgo(n) => Counted(n, 'd')
  }

  function Counted(n: int, unit: char): (t: string)
    ensures |t| >= 5 && t[|t| - 5] == unit
    ensures t[..|t| - 5] == Text.IntToString(n) && t[|t| - 4..] == " ago"
  {
    var t := Text.IntToString(n) + [unit] + " ago";
    assert t[..|t| - 5] == Text.IntToString(n) && t[|t| - 4..] == " ago";
    t
  }

  /** The text gives the label back: no two labels read the same. */
  lemma RelativeTextInjective(a: Relative, b: Relative)
    requires RelativeText(a) == RelativeText(b)
    ensures a == b
  {
    var t := RelativeText(a);
    assert UnitChar(a) == t[|t| - 5] == UnitChar(b);
    if !a.JustNow? && !b.JustNow? {
      assert Text.IntToString(a.n) == t[..|t| - 5] == Text.IntToString(b.n);
      Text.IntToStringInjective(a.n, b.n);
    }
  }

  /** The character five from the end of a label's text. */
  function UnitChar(r: Relative): char {
    match r
    case JustNow => 't'
    case MinutesAgo(_) => 'm'
    case HoursAgo(_) => 'h'
    case DaysAgo(_) => 'd'
  }

  /** The order of the buckets, youngest first. */
  function Bucket(r: Relative): nat {
    match r
    case JustNow => 0
    case MinutesAgo(_) => 1
    case HoursAgo(_) => 2
    case DaysAgo(_) => 3
  }

  /** An older item never gets a younger label: the bucket does not go down,
      and within a bucket the count does not go down. */
  lemma RelativeTimeMonotone(d1: int, d2: int)
    requires d1 <= d2
    ensures var a, b := RelativeTime(d1), RelativeTime(d2);
      Bucket(a) < Bucket(b) || (Bucket(a) == Bucket(b) && (!a.JustNow? ==> a.n <= b.n))
  {
  }

  datatype Tweet = Tweet(handle: string, text: string, timestamp: int, url: string, featured: bool)

  datatype CardClass = Featured | Standard

  /** The fields one feed card interpolates. */
  datatype TweetCard = TweetCard(
    cardClass: CardClass,
    badge: string,      // "FEATURED" on a featured card, empty otherwise
    handle: string,
    url: string,
    age: string,
    text: string)

  function CardFor(t: Tweet, now: int): (c: TweetCard)
    ensures c.cardClass == Featured <==> t.featured
    ensures c.badge == "FEATURED" <==> t.featured
    ensures c.badge == "" <==> !t.featured
    ensures c.handle == t.handle && c.url == t.url && c.text == t.text
    ensures c.age == RelativeText(RelativeTime(now - t.timestamp))
  {
    TweetCard(
      if t.featured then Featured else Standard,
      if t.featured then "FEATURED" else "",
      t.handle, t.url,
      RelativeText(RelativeTime(now - t.timestamp)),
      t.text)
  }

  /** `loadTweets`: one card per item, in the items' order. */
  function RenderFeed(ts: seq<Tweet>, now: int): (cards: seq<TweetCard>)
    ensures |cards| == |ts|
    ensures forall i :: 0 <= i < |ts| ==> cards[i] == CardFor(ts[i], now)
    ensures forall i :: 0 <= i < |ts| ==> (cards[i].cardClass == Featured <==> ts[i].featured)
  {
    if ts == [] then [] else [CardFor(ts[0], now)] + RenderFeed(ts[1..], now)
  }

  /** `updateTimes`: the card at position `i` gets the label of item `i`
      recomputed; cards past the end of the item list are left alone. */
  function UpdateTimes(cards: seq<TweetCard>, ts: seq<Tweet>, now: int): (r: seq<TweetCard>)
    ensures |r| == |cards|
    ensures forall i :: 0 <= i < |cards| && i < |ts| ==>
      r[i] == cards[i].(age := RelativeText(RelativeTime(now - ts[i].timestamp)))
    ensures forall i :: |ts| <= i < |cards| ==> r[i] == cards[i]
  {
    seq(|cards|, i requires 0 <= i < |cards| =>
      if i < |ts| then cards[i].(age := RelativeText(RelativeTime(now - ts[i].timestamp))) else cards[i])
  }

  /** Refreshing the labels of a rendered feed gives the feed rendered now. */
  lemma RefreshIsRerender(ts: seq<Tweet>, renderedAt: int, now: int)
    ensures UpdateTimes(RenderFeed(ts, renderedAt), ts, now) == RenderFeed(ts, now)
  {
  }
}

=== FILE: gateway.dfy ===
/** The two fetch helpers of `app.js` (`fetchQuotesFromBackend`,
    `fetchMarketIndices`) as pure functions of an abstract HTTP outcome. The
    process-wide "last update" time is passed in and handed back. */
module Gateway {

  import opened Common

  /** One entry of the quotes payload, as the backend computes it. */
  datatype Quote = Quote(symbol: string, name: string, price: real, changePercent: real)

  /** One entry of the market-indices payload. */
  datatype IndexQuote = IndexQuote(price: real, changePercent: real)

  /** The body of a response: unreadable (not JSON, so that `response.json()`
      rejects, or the JSON value `null`, so that reading a field of it throws),
      or any other JSON value with an optional payload field (`quotes` /
      `indices`) and an optional `last_update`, already parsed to milliseconds.
      A field that is absent or falsy is `None`; a JSON number such as `5` has
      neither field and reads as `Json(None, None)`. */
  datatype Body<T> = Unreadable | Json(payload: Option<T>, lastUpdate: Option<int>)

  /** A transport failure (the `fetch` promise rejects) or an HTTP response. */
  datatype Response<T> = TransportError | Http(ok: bool, body: Body<T>)

  /** What a helper returns, and the new value of the "last update" time. */
  datatype Fetched<T> = Fetched(data: Option<T>, lastUpdate: Option<int>)

  predicate Succeeded<T>(resp: Response<T>) {
    resp.Http? && resp.ok && resp.body.Json?
  }

  /** The "last update" time a response brings with it: the stamp of a
      successful body, if it carries one. */
  function StampOf<T>(resp: Response<T>): Option<int> {
    if Succeeded(resp) then resp.body.lastUpdate else None
  }

  /** Shared shape of both helpers: `null` on any failure, never a partial
      result; an absent payload reads as the empty collection; the "last
      update" time moves only when a successful body carries one. */
  function Fetch<T>(resp: Response<T>, empty: T, lastUpdate: Option<int>): (r: Fetched<T>)
    ensures r.data.Some? <==> Succeeded(resp)
    ensures Succeeded(resp) && resp.body.payload.Some? ==> r.data == resp.body.payload
    ensures Succeeded(resp) && resp.body.payload.None? ==> r.data == Some(empty)
    ensures r.lastUpdate ==
      if Succeeded(resp) && resp.body.lastUpdate.Some? then resp.body.lastUpdate else lastUpdate
  {
    match resp
    case TransportError => Fetched(None, lastUpdate)
    case Http(ok, body) =>
      if !ok then Fetched(None, lastUpdate)
      else match body
        case Unreadable => Fetched(None, lastUpdate)
        case Json(payload, stamp) =>
          Fetched(
            Some(if payload.Some? then payload.value else empty),
            if stamp.Some? then stamp else lastUpdate)
  }

  /** `fetchQuotesFromBackend`: the quotes object's values in order. */
  function FetchQuotes(resp: Response<seq<Quote>>, lastUpdate: Option<int>): (r: Fetched<seq<Quote>>)
    ensures r.data.None? <==> !Succeeded(resp)
    ensures Succeeded(resp) ==>
      r.data == Some(if resp.body.payload.Some? then resp.body.payload.value else [])
    ensures r.lastUpdate ==
      if Succeeded(resp) && resp.body.lastUpdate.Some? then resp.body.lastUpdate else lastUpdate
  {
    Fetch(resp, [], lastUpdate)
  }

  /** `fetchMarketIndices`: the indices object keyed by instrument. */
  function FetchIndices(resp: Response<map<string, IndexQuote>>, lastUpdate: Option<int>)
    : (r: Fetched<map<string, IndexQuote>>)
    ensures r.data.None? <==> !Succeeded(resp)
    ensures Succeeded(resp) ==>
      r.data == Some(if resp.body.payload.Some? then resp.body.payload.value else map[])
    ensures r.lastUpdate ==
      if Succeeded(resp) && resp.body.lastUpdate.Some? then resp.body.lastUpdate else lastUpdate
  {
    Fetch(resp, map[], lastUpdate)
  }

  /** A failed fetch of either kind leaves the "last update" time alone. */
  lemma FailureKeepsLastUpdate<T>(resp: Response<T>, empty: T, lastUpdate: Option<int>)
    requires !Succeeded(resp)
    ensures Fetch(resp, empty, lastUpdate) == Fetched(None, lastUpdate)
  {
  }

  /** One poll of the backend: both helpers write the same "last update" time,
      so quotes and indices responses interleave on it. */
  datatype Poll =
    | QuotesPoll(quotes: Response<seq<Quote>>)
    | IndicesPoll(indices: Response<map<string, IndexQuote>>)

  function PollStamp(p: Poll): Option<int> {
    match p
    case QuotesPoll(resp) => StampOf(resp)
    case IndicesPoll(resp) => StampOf(resp)
  }

  /** The "last update" time after handling the polls in order, first to last. */
  function LastUpdateAfter(polls: seq<Poll>, lastUpdate: Option<int>): (r: Option<int>)
    ensures lastUpdate.Some? ==> r.Some?
    ensures (forall k :: 0 <= k < |polls| ==> PollStamp(polls[k]).None?) ==> r == lastUpdate
    decreases |polls|
  {
    if polls == [] then lastUpdate
    else
      var next := match polls[0]
        case QuotesPoll(resp) => FetchQuotes(resp, lastUpdate).lastUpdate
        case IndicesPoll(resp) => FetchIndices(resp, lastUpdate).lastUpdate;
      assert PollStamp(polls[0]).None? ==> next == lastUpdate;
      assert forall k :: 0 <= k < |polls[1..]| ==> polls[1..][k] == polls[k + 1];
      LastUpdateAfter(polls[1..], next)
  }

  /** The reference: the stamp of the latest successful body that carried one,
      or the starting value when none did. */
  function LatestStamp(polls: seq<Poll>, lastUpdate: Option<int>): Option<int>
    decreases |polls|
  {
    if polls == [] then lastUpdate
    else if PollStamp(polls[|polls| - 1]).Some? then PollStamp(polls[|polls| - 1])
    else LatestStamp(polls[..|polls| - 1], lastUpdate)
  }

  /** Handling one more poll after a batch. */
  lemma {:induction false} LastUpdateAfterSnoc(polls: seq<Poll>, p: Poll, lastUpdate: Option<int>)
    ensures LastUpdateAfter(polls + [p], lastUpdate) ==
      if PollStamp(p).Some? then PollStamp(p) else LastUpdateAfter(polls, lastUpdate)
    decreases |polls|
  {
    if polls != [] {
      assert (polls + [p])[1..] == polls[1..] + [p];
      var next := match polls[0]
        case QuotesPoll(resp) => FetchQuotes(resp, lastUpdate).lastUpdate
        case IndicesPoll(resp) => FetchIndices(resp, lastUpdate).lastUpdate;
      LastUpdateAfterSnoc(polls[1..], p, next);
    }
  }

  /** Last write wins: after any run of polls of either kind, the "last update"
      time is the stamp of the latest successful response that carried one, and
      the starting value when none did. */
  lemma {:induction false} LastUpdateIsLatestStamp(polls: seq<Poll>, lastUpdate: Option<int>)
    ensures LastUpdateAfter(polls, lastUpdate) == LatestStamp(polls, lastUpdate)
    decreases |polls|
  {
    if polls != [] {
      var init := polls[..|polls| - 1];
      var p := polls[|polls| - 1];
      assert polls == init + [p];
      LastUpdateAfterSnoc(init, p, lastUpdate);
      LastUpdateIsLatestStamp(init, lastUpdate);
    }
  }
}

=== FILE: grouping.dfy ===
/** Thousands separators for the whole-dollar Bitcoin price:
    `price.toFixed(0).replace(/\B(?=(\d{3})+(?!\d))/g, ',')`. */
module Grouping {

  import Text

  function Concat(cs: seq<string>): string {
    if cs == [] then [] else Concat(cs[..|cs| - 1]) + cs[|cs| - 1]
  }

  /** A non-empty digit string cut into groups of three from the right: the
      first group has one to three digits, every later group exactly three. */
  function Chunks(d: string): (cs: seq<string>)
    requires d != []
    ensures |cs| >= 1
    ensures 1 <= |cs[0]| <= 3
    ensures forall i :: 1 <= i < |cs| ==> |cs[i]| == 3
    ensures Concat(cs) == d
    decreases |d|
  {
    if |d| <= 3 then
      assert Concat([d]) == Concat([]) + d;
      [d]
    else
      var cs := Chunks(d[..|d| - 3]) + [d[|d| - 3..]];
      assert cs[..|cs| - 1] == Chunks(d[..|d| - 3]);
      cs
  }

  /** The groups written with a comma between neighbours. */
  function Join(cs: seq<string>): string
    requires |cs| >= 1
  {
    if |cs| == 1 then cs[0] else Join(cs[..|cs| - 1]) + "," + cs[|cs| - 1]
  }

  /** The grouped rendering of a digit string. */
  function Group(d: string): string {
    if d == [] then [] else Join(Chunks(d))
  }

  /** Peeling off the last three digits of a number longer than three digits
      peels off the last group and its comma. */
  lemma GroupStep(d: string)
    requires |d| > 3
    ensures Group(d) == Group(d[..|d| - 3]) + "," + d[|d| - 3..]
  {
    var cs := Chunks(d);
    assert cs[..|cs| - 1] == Chunks(d[..|d| - 3]);
  }

  /** The regular expression's reading, position by position: a comma goes
      before the digit at index `i` when `i` is not at the start (`\B` between
      two digits) and the digits from `i` to the end come in whole groups of
      three (`(?=(\d{3})+(?!\d))`). */
  function RegexFrom(d: string, i: nat): string
    requires i <= |d|
    decreases |d| - i
  {
    if i == |d| then []
    else (if 0 < i && (|d| - i) % 3 == 0 then "," else "") + [d[i]] + RegexFrom(d, i + 1)
  }

  /** Without a comma position left from `i` on, the regex copies the rest. */
  lemma {:induction false} RegexCopiesTail(d: string, i: nat)
    requires i <= |d| <= i + 3 && (i > 0 || |d| <= 3)
    requires i == 0 || |d| - i < 3
    ensures RegexFrom(d, i) == d[i..]
    decreases |d| - i
  {
    if i < |d| {
      RegexCopiesTail(d, i + 1);
    }
  }

  function CommaBefore(d: string, i: nat): string {
    if 0 < i && (|d| - i) % 3 == 0 then "," else ""
  }

  lemma RegexUnfold(d: string, i: nat)
    requires i < |d|
    ensures RegexFrom(d, i) == CommaBefore(d, i) + [d[i]] + RegexFrom(d, i + 1)
  {
  }

  /** Cutting the last three digits off does not move any earlier comma. */
  lemma CommaBeforeCut(d: string, i: nat)
    requires |d| > 3 && i < |d| - 3
    ensures CommaBefore(d, i) == CommaBefore(d[..|d| - 3], i)
  {
    assert (|d| - i) % 3 == (|d| - 3 - i) % 3 by { ModShift(|d| - 3 - i); }
  }

  lemma ModShift(k: nat)
    ensures (k + 3) % 3 == k % 3
  {
  }

  /** The regex over `d` splits into the regex over `d` minus its last three
      digits, followed by the regex over those last three digits. */
  lemma {:induction false} RegexSplit(d: string, i: nat)
    requires |d| > 3 && i <= |d| - 3
    ensures RegexFrom(d, i) == RegexFrom(d[..|d| - 3], i) + RegexFrom(d, |d| - 3)
    decreases |d| - i
  {
    var p := d[..|d| - 3];
    if i < |p| {
      var t := RegexFrom(d, |d| - 3);
      var c := CommaBefore(p, i);
      var rest := RegexFrom(p, i + 1);
      assert RegexFrom(d, i + 1) == rest + t by { RegexSplit(d, i + 1); }
      assert CommaBefore(d, i) == c by { CommaBeforeCut(d, i); }
      assert d[i] == p[i];
      assert RegexFrom(d, i) == c + [p[i]] + (rest + t) by { RegexUnfold(d, i); }
      assert RegexFrom(p, i) == c + [p[i]] + rest by { RegexUnfold(p, i); }
      assert c + [p[i]] + (rest + t) == (c + [p[i]] + rest) + t;
    }
  }

  /** The last three digits of a number longer than three digits come out of
      the regex with one comma before them. */
  lemma RegexLastGroup(d: string)
    requires |d| > 3
    ensures RegexFrom(d, |d| - 3) == "," + d[|d| - 3..]
  {
    var n := |d|;
    RegexUnfold(d, n - 3);
    RegexCopiesTail(d, n - 2);
    assert CommaBefore(d, n - 3) == ",";
  }

  /** The grouping by chunks is exactly what the regular expression produces. */
  lemma {:induction false} GroupMatchesRegex(d: string)
    ensures Group(d) == RegexFrom(d, 0)
    decreases |d|
  {
    if |d| <= 3 {
      RegexCopiesTail(d, 0);
      if d != [] {
        assert Join(Chunks(d)) == d;
      }
    } else {
      var p := d[..|d| - 3];
      calc {
        Group(d);
        { GroupStep(d); }
        Group(p) + "," + d[|d| - 3..];
        { GroupMatchesRegex(p); }
        RegexFrom(p, 0) + ("," + d[|d| - 3..]);
        { RegexLastGroup(d); }
        RegexFrom(p, 0) + RegexFrom(d, |d| - 3);
        { RegexSplit(d, 0); }
        RegexFrom(d, 0);
      }
    }
  }

  /** Deletes every comma. */
  function RemoveCommas(s: string): string {
    if s == [] then []
    else RemoveCommas(s[..|s| - 1]) + (if s[|s| - 1] == ',' then [] else [s[|s| - 1]])
  }

  lemma {:induction false} RemoveCommasAppend(a: string, b: string)
    ensures RemoveCommas(a + b) == RemoveCommas(a) + RemoveCommas(b)
    decreases |b|
  {
    if b != [] {
      var b' := b[..|b| - 1];
      var c := b[|b| - 1];
      var tail := if c == ',' then [] else [c];
      calc {
        RemoveCommas(a + b);
        { assert (a + b)[..|a + b| - 1] == a + b'; assert (a + b)[|a + b| - 1] == c; }
        RemoveCommas(a + b') + tail;
        { RemoveCommasAppend(a, b'); }
        RemoveCommas(a) + RemoveCommas(b') + tail;
        RemoveCommas(a) + (RemoveCommas(b') + tail);
        RemoveCommas(a) + RemoveCommas(b);
      }
    } else {
      assert a + b == a;
    }
  }

  lemma {:induction false} RemoveCommasKeepsDigits(d: string)
    requires Text.IsDigits(d)
    ensures RemoveCommas(d) == d
    decreases |d|
  {
    if d != [] {
      RemoveCommasKeepsDigits(d[..|d| - 1]);
    }
  }

  /** Grouping a digit string loses nothing: deleting the commas gives the
      digits back. It adds one comma per complete group after the first, and
      starts and ends with a digit, never a comma. */
  lemma GroupRoundTrip(d: string)
    requires Text.IsDigits(d)
    ensures RemoveCommas(Group(d)) == d
    ensures |Group(d)| == |d| + (if d == [] then 0 else (|d| - 1) / 3)
    ensures d != [] ==> Text.IsDigit(Group(d)[0]) && Text.IsDigit(Group(d)[|Group(d)| - 1])
  {
    GroupRemoveCommas(d);
    GroupLength(d);
    GroupEnds(d);
  }

  lemma {:induction false} GroupRemoveCommas(d: string)
    requires Text.IsDigits(d)
    ensures RemoveCommas(Group(d)) == d
    decreases |d|
  {
    if |d| <= 3 {
      RemoveCommasKeepsDigits(d);
      if d != [] {
        assert Join(Chunks(d)) == d;
      }
    } else {
      var p := d[..|d| - 3];
      assert Text.IsDigits(p);
      GroupStep(d);
      GroupRemoveCommas(p);
      RemoveCommasAfterGroup(Group(p), p, d[|d| - 3..]);
      assert p + d[|d| - 3..] == d;
    }
  }

  /** Deleting the commas of a group, a comma and a block of digits. */
  lemma RemoveCommasAfterGroup(g: string, p: string, t: string)
    requires RemoveCommas(g) == p && Text.IsDigits(t)
    ensures RemoveCommas(g + "," + t) == p + t
  {
    calc {
      RemoveCommas(g + "," + t);
      { RemoveCommasAppend(g + ",", t); }
      RemoveCommas(g + ",") + RemoveCommas(t);
      { RemoveCommasAppend(g, ",");
        assert RemoveCommas(",") == RemoveCommas([]) + []; }
      p + RemoveCommas(t);
      { RemoveCommasKeepsDigits(t); }
      p + t;
    }
  }

  lemma {:induction false} GroupLength(d: string)
    ensures |Group(d)| == |d| + (if d == [] then 0 else (|d| - 1) / 3)
    decreases |d|
  {
    if 0 < |d| <= 3 {
      assert Join(Chunks(d)) == d;
    } else if |d| > 3 {
      var p := d[..|d| - 3];
      GroupStep(d);
      GroupLength(p);
    }
  }

  lemma {:induction false} GroupEnds(d: string)
    requires Text.IsDigits(d)
    ensures d != [] ==> Text.IsDigit(Group(d)[0]) && Text.IsDigit(Group(d)[|Group(d)| - 1])
    decreases |d|
  {
    if 0 < |d| <= 3 {
      assert Join(Chunks(d)) == d;
    } else if |d| > 3 {
      var p := d[..|d| - 3];
      assert Text.IsDigits(p);
      GroupStep(d);
      GroupEnds(p);
      GroupLength(p);
      assert Group(d)[0] == Group(p)[0];
      assert Group(d)[|Group(d)| - 1] == d[|d| - 1];
    }
  }

  /** `toFixed(0)`: the nearest whole number, a tie going away from zero
      (the magnitude is rounded, then the sign put back). */
  function RoundWhole(x: real): (n: int)
    ensures x >= 0.0 ==> n as real - 0.5 <= x < n as real + 0.5
    ensures x < 0.0 ==> n as real - 0.5 < x <= n as real + 0.5
  {
    if x < 0.0 then -((-x + 0.5).Floor) else (x + 0.5).Floor
  }

  function Magnitude(n: int): nat {
    if n < 0 then -n else n
  }

  /** `x.toFixed(0)` followed by the comma insertion. `toFixed` writes a `-`
      for every negative `x`, even one that rounds to 0; the sign is a word
      boundary for `\B`, so no comma follows it. */
  function WholeWithCommas(x: real): (r: string)
    ensures r == (if x < 0.0 then "-" else "") + RegexFrom(Text.NatToString(Magnitude(RoundWhole(x))), 0)
    ensures RemoveCommas(r) == (if x < 0.0 then "-" else "") + Text.NatToString(Magnitude(RoundWhole(x)))
  {
    var sign := if x < 0.0 then "-" else "";
    var digits := Text.NatToString(Magnitude(RoundWhole(x)));
    var g := Group(digits);
    GroupMatchesRegex(digits);
    GroupRoundTrip(digits);
    RemoveCommasAppend(sign, g);
    assert RemoveCommas(sign) == sign by {
      if sign != [] {
        assert RemoveCommas(sign) == RemoveCommas([]) + ['-'];
      }
    }
    sign + g
  }

  /** A worked instance: the digits 104250 group as "104,250". */
  lemma GroupExample()
    ensures Group("104250") == "104,250"
  {
    var d := "104250";
    GroupStep(d);
    assert d[..3] == "104" && d[3..] == "250";
    assert Group("104") == "104" by {
      assert Join(Chunks("104")) == "104";
    }
  }
}

=== FILE: text.dfy ===
/** String helpers the dashboard relies on: `String.prototype.trim`,
    `toUpperCase` and the decimal rendering of integers in template strings. */
module Text {

  /** The ECMAScript WhiteSpace and LineTerminator code points that `trim` removes. */
  predicate IsJsWhitespace(c: char) {
    var n := c as int;
    || (0x09 <= n <= 0x0D)                  // tab, line feed, vertical tab, form feed, carriage return
    || n == 0x20 || n == 0xA0 || n == 0x1680 // space, no-break space, ogham space mark
    || (0x2000 <= n <= 0x200A)              // en quad .. hair space
    || n == 0x2028 || n == 0x2029           // line and paragraph separators
    || n == 0x202F || n == 0x205F || n == 0x3000 || n == 0xFEFF
  }

  predicate AllWhitespace(s: string) {
    forall k :: 0 <= k < |s| ==> IsJsWhitespace(s[k])
  }

  /** Neither end of `s` is whitespace (vacuous for the empty string). */
  predicate TrimmedEnds(s: string) {
    s == [] || (!IsJsWhitespace(s[0]) && !IsJsWhitespace(s[|s| - 1]))
  }

  /** The index of the first character at or after `i` that is not
      whitespace, or `|s|` when there is none. */
  function ContentStart(s: string, i: nat): (j: nat)
    requires i <= |s|
    ensures i <= j <= |s|
    ensures forall k :: i <= k < j ==> IsJsWhitespace(s[k])
    ensures j == |s| || !IsJsWhitespace(s[j])
    decreases |s| - i
  {
    if i < |s| && IsJsWhitespace(s[i]) then ContentStart(s, i + 1) else i
  }

  /** The index just past the last character before `j` and from `lo` on that
      is not whitespace, or `lo` when there is none. */
  function ContentEnd(s: string, lo: nat, j: nat): (e: nat)
    requires lo <= j <= |s|
    ensures lo <= e <= j
    ensures forall k :: e <= k < j ==> IsJsWhitespace(s[k])
    ensures e == lo || !IsJsWhitespace(s[e - 1])
    decreases j - lo
  {
    if lo < j && IsJsWhitespace(s[j - 1]) then ContentEnd(s, lo, j - 1) else j
  }

  /** `r` sits in `s` at offset `i`, and all of `s` outside it is whitespace. */
  predicate TrimmedAt(r: string, s: string, i: nat) {
    && i + |r| <= |s|
    && s[i..i + |r|] == r
    && (forall k :: 0 <= k < i ==> IsJsWhitespace(s[k]))
    && (forall k :: i + |r| <= k < |s| ==> IsJsWhitespace(s[k]))
  }

  /** `String.prototype.trim`: the whitespace at both ends is dropped. */
  function Trim(s: string): (r: string)
    ensures TrimmedEnds(r)
    ensures exists i: nat :: TrimmedAt(r, s, i)
  {
    var i := ContentStart(s, 0);
    var e := ContentEnd(s, i, |s|);
    var r := s[i..e];
    assert TrimmedAt(r, s, i);
    r
  }

  /** Trimming yields the empty string exactly when the input is all whitespace. */
  lemma TrimEmptyIff(s: string)
    ensures Trim(s) == [] <==> AllWhitespace(s)
  {
  }

  /** Trimming a string whose ends are not whitespace changes nothing. */
  lemma TrimKeepsTrimmed(s: string)
    requires TrimmedEnds(s)
    ensures Trim(s) == s
  {
    if s != [] {
      assert ContentStart(s, 0) == 0;
      assert ContentEnd(s, 0, |s|) == |s|;
      assert s[0..|s|] == s;
    }
  }

  predicate IsAsciiLower(c: char) {
    'a' <= c <= 'z'
  }

  function UpperChar(c: char): char {
    if IsAsciiLower(c) then (c as int - 32) as char else c
  }

  /** `toUpperCase`, restricted to the ASCII letters. */
  function ToUpper(s: string): (r: string)
    ensures |r| == |s|
    ensures forall k :: 0 <= k < |r| ==> !IsAsciiLower(r[k])
    ensures forall k :: 0 <= k < |r| ==> !IsAsciiLower(s[k]) ==> r[k] == s[k]
    ensures forall k :: 0 <= k < |r| ==> (IsJsWhitespace(r[k]) <==> IsJsWhitespace(s[k]))
    ensures forall k :: 0 <= k < |r| && IsAsciiLower(s[k]) ==>
      'A' <= r[k] <= 'Z' && r[k] as int - 'A' as int == s[k] as int - 'a' as int
  {
    seq(|s|, k requires 0 <= k < |s| => UpperChar(s[k]))
  }

  /** Two characters that differ at most in the case of an ASCII letter. */
  predicate SameLetterIgnoringCase(c: char, d: char) {
    || c == d
    || (IsAsciiLower(c) && d as int == c as int - 32)
    || (IsAsciiLower(d) && c as int == d as int - 32)
  }

  /** Two strings that are equal once ASCII case is ignored. */
  predicate EqualIgnoringAsciiCase(x: string, y: string) {
    |x| == |y| && forall k :: 0 <= k < |x| ==> SameLetterIgnoringCase(x[k], y[k])
  }

  /** Upper-casing changes a string only in the case of its ASCII letters. */
  lemma ToUpperIsCaseVariant(s: string)
    ensures EqualIgnoringAsciiCase(ToUpper(s), s)
  {
    var u := ToUpper(s);
    forall k | 0 <= k < |u|
      ensures SameLetterIgnoringCase(u[k], s[k])
    {
      assert u[k] == UpperChar(s[k]);
    }
  }

  /** Upper-casing keeps a trimmed string trimmed. */
  lemma ToUpperKeepsTrimmedEnds(s: string)
    requires TrimmedEnds(s)
    ensures TrimmedEnds(ToUpper(s))
  {
    var u := ToUpper(s);
    if s != [] {
      assert IsJsWhitespace(u[0]) <==> IsJsWhitespace(s[0]);
      assert IsJsWhitespace(u[|u| - 1]) <==> IsJsWhitespace(s[|s| - 1]);
    }
  }

  /** Upper-casing identifies exactly the strings that differ only in ASCII case. */
  lemma ToUpperEqualIff(x: string, y: string)
    ensures ToUpper(x) == ToUpper(y) <==> EqualIgnoringAsciiCase(x, y)
  {
    if ToUpper(x) == ToUpper(y) {
      forall k | 0 <= k < |x|
        ensures SameLetterIgnoringCase(x[k], y[k])
      {
        assert ToUpper(x)[k] == ToUpper(y)[k];
      }
    }
    if EqualIgnoringAsciiCase(x, y) {
      assert forall k :: 0 <= k < |x| ==> ToUpper(x)[k] == ToUpper(y)[k];
    }
  }

  /** A string with no lower-case ASCII letter is its own upper case. */
  lemma ToUpperKeepsUpper(s: string)
    requires forall k :: 0 <= k < |s| ==> !IsAsciiLower(s[k])
    ensures ToUpper(s) == s
  {
  }

  predicate IsDigit(c: char) {
    '0' <= c <= '9'
  }

  predicate IsDigits(s: string) {
    forall k :: 0 <= k < |s| ==> IsDigit(s[k])
  }

  function DigitChar(d: nat): (c: char)
    requires d < 10
    ensures IsDigit(c)
  {
    ('0' as int + d) as char
  }

  function DigitValue(c: char): nat
    requires IsDigit(c)
  {
    c as int - '0' as int
  }

  /** The value of a decimal digit string (the empty string reads as 0). */
  function ParseDigits(s: string): nat
    requires IsDigits(s)
  {
    if s == [] then 0 else ParseDigits(s[..|s| - 1]) * 10 + DigitValue(s[|s| - 1])
  }

  /** The decimal rendering JavaScript gives a non-negative integer:
      at least one digit, and no leading zero except for "0" itself. */
  function NatToString(n: nat): (r: string)
    ensures |r| >= 1 && IsDigits(r)
    ensures r[0] == '0' ==> r == "0"
  {
    if n < 10 then [DigitChar(n)] else NatToString(n / 10) + [DigitChar(n % 10)]
  }

  /** Reading the rendering back gives the number: the rendering loses nothing. */
  lemma {:induction false} ParseNatToString(n: nat)
    ensures ParseDigits(NatToString(n)) == n
  {
    var r := NatToString(n);
    if n >= 10 {
      ParseNatToString(n / 10);
      assert r[..|r| - 1] == NatToString(n / 10);
    }
  }

  /** Distinct numbers render differently. */
  lemma NatToStringInjective(m: nat, n: nat)
    requires NatToString(m) == NatToString(n)
    ensures m == n
  {
    ParseNatToString(m);
    ParseNatToString(n);
  }

  /** The decimal rendering of an integer in a template string: a `-` sign before
      the digits of a negative value. */
  function IntToString(i: int): (r: string)
    ensures |r| >= 1
    ensures i >= 0 ==> IsDigits(r)
    ensures i < 0 ==> r[0] == '-' && IsDigits(r[1..]) && |r| >= 2
    ensures i >= 0 ==> ParseDigits(r) == i
    ensures i < 0 ==> ParseDigits(r[1..]) == -i
    ensures i >= 0 ==> (r[0] == '0' ==> r == "0")
    ensures i < 0 ==> r[1] != '0'
  {
    if i < 0 then
      ParseNatToString(-i);
      assert ("-" + NatToString(-i))[1..] == NatToString(-i);
      "-" + NatToString(-i)
    else
      ParseNatToString(i);
      NatToString(i)
  }

  /** Distinct integers render differently. */
  lemma IntToStringInjective(i: int, j: int)
    requires IntToString(i) == IntToString(j)
    ensures i == j
  {
    if i < 0 && j < 0 {
      assert NatToString(-i) == IntToString(i)[1..];
      assert NatToString(-j) == IntToString(j)[1..];
      NatToStringInjective(-i, -j);
    } else if i >= 0 && j >= 0 {
      NatToStringInjective(i, j);
    }
  }

  /** A worked instance: the two spellings of one ticker used as an example
      throughout the watchlist model. */
  lemma NvdaSpellings()
    ensures Trim("nvda") == "nvda" && Trim("NVDA") == "NVDA"
    ensures ToUpper("nvda") == "NVDA" && ToUpper("NVDA") == "NVDA"
  {
    TrimKeepsTrimmed("nvda");
    TrimUpperNvda();
    UpperNvda();
    ToUpperKeepsUpper("NVDA");
  }

  lemma TrimUpperNvda()
    ensures Trim("NVDA") == "NVDA"
  {
    TrimKeepsTrimmed("NVDA");
  }

  lemma UpperNvda()
    ensures ToUpper("nvda") == "NVDA"
  {
    var u := ToUpper("nvda");
    assert u[0] == 'N' && u[1] == 'V' && u[2] == 'D' && u[3] == 'A';
  }
}

=== FILE: timelabels.dfy ===
/** The two elapsed-time labels of `app.js`: the "last update" label that
    `updateTimestamp` refreshes every second, and the "Updated … ago" label of
    the market summary. Times are integer milliseconds; for a positive divisor
    Dafny's `/` is `Math.floor` of the quotient. */
module TimeLabels {

  import opened Common
  import Text

  datatype UpdateLabel =
    | Updating             // no successful fetch has reported a time yet
    | SecondsAgo(secs: int)
    | MinutesAgo(mins: int)
    | ClockTime(at: int)   // the update time itself, as a local clock time

  /** `updateTimestamp`. A time in the future gives a negative number of seconds. */
  function LastUpdateLabel(lastUpdate: Option<int>, now: int): (r: UpdateLabel)
    ensures r.Updating? <==> lastUpdate.None?
    ensures r.SecondsAgo? <==> lastUpdate.Some? && now - lastUpdate.value < 60000
    ensures r.SecondsAgo? ==>
      r.secs * 1000 <= now - lastUpdate.value < r.secs * 1000 + 1000
    ensures r.MinutesAgo? <==> lastUpdate.Some? && 60000 <= now - lastUpdate.value < 3600000
    ensures r.MinutesAgo? ==>
      && 1 <= r.mins < 60
      && r.mins * 60000 <= now - lastUpdate.value < r.mins * 60000 + 60000
    ensures r.ClockTime? <==> lastUpdate.Some? && 3600000 <= now - lastUpdate.value
    ensures r.ClockTime? ==> r.at == lastUpdate.value
  {
    match lastUpdate
    case None => Updating
    case Some(t) =>
      var diffSeconds := (now - t) / 1000;
      if diffSeconds < 60 then SecondsAgo(diffSeconds)
      else if diffSeconds < 3600 then MinutesAgo(diffSeconds / 60)
      else ClockTime(t)
  }

  /** The label's text; `clock` is what `toLocaleTimeString` gives for the
      update time. */
  function LastUpdateText(shown: UpdateLabel, clock: string): (t: string)
    ensures shown.Updating? ==> t == "updating..."
    ensures shown.ClockTime? ==> t == clock
    ensures !shown.ClockTime? ==> |t| >= 8 && t[|t| - 7] == UpdateUnitChar(shown)
    ensures shown.SecondsAgo? ==> t[..|t| - 8] == Text.IntToString(shown.secs) && t[|t| - 8..] == " sec ago"
    ensures shown.MinutesAgo? ==> t[..|t| - 8] == Text.IntToString(shown.mins) && t[|t| - 8..] == " min ago"
  {
    match shown
    case Updating => "updating..."
    case SecondsAgo(s) =>
      SplitAfter(Text.IntToString(s), " sec ago");
      Text.IntToString(s) + " sec ago"
    case MinutesAgo(m) =>
      SplitAfter(Text.IntToString(m), " min ago");
      Text.IntToString(m) + " min ago"
    case ClockTime(_) => clock
  }

  /** Where the two parts of a two-part text sit. */
  lemma SplitAfter(x: string, y: string)
    ensures var t := x + y; |t| == |x| + |y| && t[..|x|] == x && t[|x|..] == y
  {
  }

  /** Apart from the clock time, whose text is the locale's, the text gives the
      label back: no two labels read the same. */
  lemma LastUpdateTextInjective(a: UpdateLabel, b: UpdateLabel, clock: string)
    requires !a.ClockTime? && !b.ClockTime?
    requires LastUpdateText(a, clock) == LastUpdateText(b, clock)
    ensures a == b
  {
    var t := LastUpdateText(a, clock);
    assert UpdateUnitChar(a) == t[|t| - 7] == UpdateUnitChar(b);
    if a.SecondsAgo? && b.SecondsAgo? {
      assert Text.IntToString(a.secs) == t[..|t| - 8] == Text.IntToString(b.secs);
      Text.IntToStringInjective(a.secs, b.secs);
    } else if a.MinutesAgo? && b.MinutesAgo? {
      assert Text.IntToString(a.mins) == t[..|t| - 8] == Text.IntToString(b.mins);
      Text.IntToStringInjective(a.mins, b.mins);
    }
  }

  /** The character seven from the end of a non-clock label's text. */
  function UpdateUnitChar(shown: UpdateLabel): char {
    match shown
    case Updating => 't'
    case SecondsAgo(_) => 's'
    case MinutesAgo(_) => 'm'
    case ClockTime(_) => ' '
  }

  /** As time passes the label never goes back to a younger one. */
  lemma LastUpdateLabelMonotone(t: int, now1: int, now2: int)
    requires now1 <= now2
    ensures var a, b := LastUpdateLabel(Some(t), now1), LastUpdateLabel(Some(t), now2);
      && (a.ClockTime? ==> b.ClockTime?)
      && (a.MinutesAgo? ==> b.ClockTime? || (b.MinutesAgo? && a.mins <= b.mins))
      && (a.SecondsAgo? && b.SecondsAgo? ==> a.secs <= b.secs)
  {
  }

  /** The summary's age: minutes below an hour, whole hours from then on. */
  datatype SummaryAge = SummaryMinutes(mins: int) | SummaryHours(hours: int)

  function SummaryAgeFor(updated: int, now: int): (r: SummaryAge)
    ensures r.SummaryMinutes? <==> now - updated < 3600000
    ensures r.SummaryMinutes? ==>
      r.mins * 60000 <= now - updated < r.mins * 60000 + 60000
    ensures r.SummaryHours? ==>
      && r.hours >= 1
      && r.hours * 3600000 <= now - updated < r.hours * 3600000 + 3600000
  {
    var diffMinutes := (now - updated) / 60000;
    if diffMinutes < 60 then SummaryMinutes(diffMinutes)
    else SummaryHours(diffMinutes / 60)
  }

  /** "Updated N min ago", "Updated 1 hour ago" or "Updated N hours ago". */
  function SummaryAgeText(age: SummaryAge): (t: string)
    ensures |t| >= 8 + AgeSuffixLength(age) && t[..8] == "Updated "
    ensures t[8..|t| - AgeSuffixLength(age)] == Text.IntToString(AgeNumber(age))
    ensures t[|t| - AgeSuffixLength(age)..] == AgeSuffix(age)
    ensures t[|t| - 5] == AgeUnitChar(age)
  {
    match age
    case SummaryMinutes(m) =>
      UpdatedParts(Text.IntToString(m), " min ago");
      "Updated " + Text.IntToString(m) + " min ago"
    case SummaryHours(h) =>
      var unit := if h > 1 then " hours ago" else " hour ago";
      UpdatedParts(Text.IntToString(h), unit);
      "Updated " + Text.IntToString(h) + unit
  }

  /** The text gives the age back: no two ages read the same. */
  lemma SummaryAgeTextInjective(a: SummaryAge, b: SummaryAge)
    requires SummaryAgeText(a) == SummaryAgeText(b)
    ensures a == b
  {
    var t := SummaryAgeText(a);
    SameAgeParts(a, b, t);
    Text.IntToStringInjective(AgeNumber(a), AgeNumber(b));
  }

  /** Two ages with the same text have the same unit and the same number text. */
  lemma SameAgeParts(a: SummaryAge, b: SummaryAge, t: string)
    requires t == SummaryAgeText(a) && t == SummaryAgeText(b)
    ensures AgeUnitChar(a) == AgeUnitChar(b)
    ensures Text.IntToString(AgeNumber(a)) == Text.IntToString(AgeNumber(b))
  {
    assert AgeUnitChar(a) == t[|t| - 5] == AgeUnitChar(b);
    assert AgeSuffixLength(a) == AgeSuffixLength(b);
  }

  /** The character five from the end: `n` of "min", `r` of "hour", `s` of "hours". */
  function AgeUnitChar(age: SummaryAge): char {
    match age
    case SummaryMinutes(_) => 'n'
    case SummaryHours(h) => if h > 1 then 's' else 'r'
  }

  function AgeNumber(age: SummaryAge): int {
    match age
    case SummaryMinutes(m) => m
    case SummaryHours(h) => h
  }

  /** The text after the number: " min ago", " hour ago" or, from two hours, " hours ago". */
  function AgeSuffix(age: SummaryAge): string {
    match age
    case SummaryMinutes(_) => " min ago"
    case SummaryHours(h) => if h > 1 then " hours ago" else " hour ago"
  }

  /** The length of `AgeSuffix(age)`. */
  function AgeSuffixLength(age: SummaryAge): nat {
    match age
    case SummaryMinutes(_) => 8
    case SummaryHours(h) => if h > 1 then 10 else 9
  }

  /** Where the number and the unit sit in "Updated <number><unit>". */
  lemma UpdatedParts(number: string, unit: string)
    requires |unit| >= 5
    ensures var t := "Updated " + number + unit;
      && |t| == 8 + |number| + |unit| && t[..8] == "Updated "
      && t[8..|t| - |unit|] == number && t[|t| - |unit|..] == unit
      && t[|t| - 5] == unit[|unit| - 5]
  {
    var t := "Updated " + number + unit;
    assert t[..8] == "Updated ";
    assert t[8..|t| - |unit|] == number;
    assert t[|t| - |unit|..] == unit;
  }

  /** Between one and two hours the label reads "Updated 1 hour ago", singular. */
  lemma OneHourIsSingular(updated: int, now: int)
    requires 3600000 <= now - updated < 7200000
    ensures SummaryAgeText(SummaryAgeFor(updated, now)) == "Updated 1 hour ago"
  {
    assert SummaryAgeFor(updated, now) == SummaryHours(1);
    assert Text.IntToString(1) == "1";
    assert SummaryAgeText(SummaryHours(1)) == "Updated " + "1" + " hour ago";
  }

  /** From two hours on the unit is plural. */
  lemma TwoHoursArePlural(updated: int, now: int)
    requires 7200000 <= now - updated
    ensures var h := SummaryAgeFor(updated, now).hours;
      h >= 2 && SummaryAgeText(SummaryAgeFor(updated, now)) == "Updated " + Text.IntToString(h) + " hours ago"
  {
  }

  /** The summary endpoint's outcome: a failure (transport, HTTP status or an
      unreadable body) or a JSON body with optional `summary` and `updated`. */
  datatype SummaryResponse = SummaryFailed | SummaryBody(summary: Option<string>, updated: Option<int>)

  datatype SummaryContent = SummaryUnavailable | SummaryText(text: string)

  /** What the summary section shows; `age` is `None` when the time element is
      left as it was. */
  datatype SummaryPanel = SummaryPanel(content: SummaryContent, age: Option<SummaryAge>)

  /** `loadMarketSummary`: an empty summary string is falsy and counts as
      unavailable; the age is written only alongside a summary. */
  function SummaryPanelFor(resp: SummaryResponse, now: int): (r: SummaryPanel)
    ensures r.content.SummaryText? <==> resp.SummaryBody? && resp.summary.Some? && resp.summary.value != ""
    ensures r.content.SummaryText? ==> r.content.text == resp.summary.value
    ensures r.age.Some? <==> r.content.SummaryText? && resp.updated.Some?
    ensures r.age.Some? ==> r.age.value == SummaryAgeFor(resp.updated.value, now)
  {
    match resp
    case SummaryFailed => SummaryPanel(SummaryUnavailable, None)
    case SummaryBody(summary, updated) =>
      if summary.None? || summary.value == [] then SummaryPanel(SummaryUnavailable, None)
      else SummaryPanel(SummaryText(summary.value), if updated.Some? then Some(SummaryAgeFor(updated.value, now)) else None)
  }

  /** `loadMarketSummary` end to end: a summary updated `n` whole minutes ago,
      under an hour, shows its text and "Updated n min ago". */
  lemma SummaryShownWithMinutes(summary: string, updated: int, now: int, n: int)
    requires summary != ""
    requires n < 60 && n * 60000 <= now - updated < n * 60000 + 60000
    ensures var p := SummaryPanelFor(SummaryBody(Some(summary), Some(updated)), now);
      && p.content == SummaryText(summary)
      && p.age.Some?
      && SummaryAgeText(p.age.value) == "Updated " + Text.IntToString(n) + " min ago"
  {
    var age := SummaryAgeFor(updated, now);
    assert age.SummaryMinutes? && age.mins == n;
  }

  /** The same from an hour on: "Updated h hour ago" for the first hour,
      "Updated h hours ago" after it. */
  lemma SummaryShownWithHours(summary: string, updated: int, now: int, h: int)
    requires summary != ""
    requires 1 <= h && h * 3600000 <= now - updated < h * 3600000 + 3600000
    ensures var p := SummaryPanelFor(SummaryBody(Some(summary), Some(updated)), now);
      && p.content == SummaryText(summary)
      && p.age.Some?
      && SummaryAgeText(p.age.value)
         == "Updated " + Text.IntToString(h) + (if h == 1 then " hour ago" else " hours ago")
  {
    var age := SummaryAgeFor(updated, now);
    assert age.SummaryHours? && age.hours == h;
  }
}

=== FILE: watchlist.dfy ===
/** The watchlist controller of `app.js`: the in-memory list of ticker symbols,
    its copy in the browser's key-value store, and the add / remove operations.
    Alerts, the confirmation dialog and the re-render are replaced by return
    values and a `confirmed` parameter; the store is the `persisted` field. */
module Watchlist {

  import Text
  import opened Common

  /** The list used when nothing usable is stored. */
  const DefaultSymbols: seq<string> := ["NVDA", "AAPL", "TSLA", "MSFT", "AMD"]

  /** The stored `watchlist` entry, as `JSON.parse` sees it. */
  datatype Stored =
    | Missing                            // no entry: `getItem` gives null, which parses to null
    | Malformed                          // not JSON: `JSON.parse` throws
    | FalsyJson                          // JSON whose value is falsy: null, false, 0 or ""
    | SymbolArray(symbols: seq<string>)  // a JSON array of strings, truthy even when empty

  datatype LoadError = SyntaxError

  /** The watchlist together with what the store currently holds. */
  datatype State = State(symbols: seq<string>, persisted: Stored)

  predicate NoDuplicates(s: seq<string>) {
    forall i, j :: 0 <= i < j < |s| ==> s[i] != s[j]
  }

  /** The store holds exactly the in-memory list. */
  predicate Synced(st: State) {
    st.persisted == SymbolArray(st.symbols)
  }

  /** What `localStorage.setItem('watchlist', JSON.stringify(list))` leaves behind. */
  function Persist(symbols: seq<string>): (st: State)
    ensures Synced(st) && st.symbols == symbols
  {
    State(symbols, SymbolArray(symbols))
  }

  /** The initial load: parse the stored entry, falling back to the default list
      when the parsed value is falsy. Loading writes nothing back. */
  function Load(stored: Stored): (r: Result<State, LoadError>)
    ensures r.Err? <==> stored.Malformed?
    ensures r.Ok? ==> r.value.persisted == stored
    ensures stored.SymbolArray? ==> r.Ok? && r.value.symbols == stored.symbols
    ensures (stored.Missing? || stored.FalsyJson?) ==> r.Ok? && r.value.symbols == DefaultSymbols
    ensures r.Ok? ==> (Synced(r.value) <==> stored.SymbolArray?)
    ensures r.Ok? && !stored.SymbolArray? ==> NoDuplicates(r.value.symbols)
  {
    DefaultHasNoDuplicates();
    match stored
    case Missing => Ok(State(DefaultSymbols, stored))
    case Malformed => Err(SyntaxError)
    case FalsyJson => Ok(State(DefaultSymbols, stored))
    case SymbolArray(xs) => Ok(State(xs, stored))
  }

  /** A list that was written to the store comes back unchanged on the next
      page load, the empty list included. */
  lemma ReloadRestores(st: State)
    requires Synced(st)
    ensures Load(st.persisted) == Ok(st)
  {
  }

  lemma DefaultHasNoDuplicates()
    ensures NoDuplicates(DefaultSymbols)
  {
  }

  /** The form of every symbol typed into the input box that `addStock` accepts. */
  predicate WellFormedSymbol(s: string) {
    && s != []
    && Text.TrimmedEnds(s)
    && (forall k :: 0 <= k < |s| ==> !Text.IsAsciiLower(s[k]))
  }

  /** `input.value.trim().toUpperCase()`. */
  function Normalize(input: string): (r: string)
    ensures r == [] <==> Text.AllWhitespace(input)
    ensures r != [] ==> WellFormedSymbol(r)
    ensures Text.EqualIgnoringAsciiCase(r, Text.Trim(input))
  {
    var t := Text.Trim(input);
    Text.TrimEmptyIff(input);
    Text.ToUpperIsCaseVariant(t);
    Text.ToUpperKeepsTrimmedEnds(t);
    Text.ToUpper(t)
  }

  /** Two inputs name the same symbol exactly when, blanks at the ends removed,
      they differ at most in the case of ASCII letters. */
  lemma NormalizeEqualIff(a: string, b: string)
    ensures Normalize(a) == Normalize(b) <==> Text.EqualIgnoringAsciiCase(Text.Trim(a), Text.Trim(b))
  {
    Text.ToUpperEqualIff(Text.Trim(a), Text.Trim(b));
  }

  /** Normalizing twice is normalizing once. */
  lemma NormalizeIdempotent(input: string)
    ensures Normalize(Normalize(input)) == Normalize(input)
  {
    var r := Normalize(input);
    Text.TrimKeepsTrimmed(r);
    Text.ToUpperKeepsUpper(r);
  }

  datatype AddOutcome =
    | Added(symbol: string)            // appended, stored, list re-rendered
    | EmptySymbol                      // "Please enter a stock symbol"
    | DuplicateSymbol(symbol: string)  // "<symbol> is already in your watchlist"

  datatype Step = Step(state: State, outcome: AddOutcome)

  /** `addStockToWatchlist(symbol)`, used by the suggestion chips: the symbol is
      taken as given, with no trimming or case change. */
  function AddSuggested(st: State, symbol: string): (r: Step)
    ensures symbol in st.symbols ==> r == Step(st, DuplicateSymbol(symbol))
    ensures symbol !in st.symbols ==>
      && r.outcome == Added(symbol)
      && r.state.symbols == st.symbols + [symbol]
      && Synced(r.state)
    ensures symbol in r.state.symbols
    ensures NoDuplicates(st.symbols) ==> NoDuplicates(r.state.symbols)
  {
    if symbol in st.symbols then Step(st, DuplicateSymbol(symbol))
    else Step(Persist(st.symbols + [symbol]), Added(symbol))
  }

  /** `addStock()`, fed from the input box: blank input is refused, the symbol is
      trimmed and upper-cased, a symbol already listed is refused, and otherwise
      the symbol is appended and the list stored. A refusal changes nothing. */
  function AddStock(st: State, input: string): (r: Step)
    ensures r.outcome.EmptySymbol? <==> Text.AllWhitespace(input)
    ensures r.outcome.DuplicateSymbol? <==>
      !Text.AllWhitespace(input) && Normalize(input) in st.symbols
    ensures !r.outcome.Added? ==> r.state == st
    ensures r.outcome.DuplicateSymbol? ==> r.outcome.symbol == Normalize(input)
    ensures r.outcome.Added? ==>
      && r.outcome.symbol == Normalize(input)
      && WellFormedSymbol(r.outcome.symbol)
      && r.state.symbols == st.symbols + [r.outcome.symbol]
      && Synced(r.state)
    ensures NoDuplicates(st.symbols) ==> NoDuplicates(r.state.symbols)
  {
    var symbol := Normalize(input);
    if symbol == [] then Step(st, EmptySymbol)
    else AddSuggested(st, symbol)
  }

  /** Two inputs that differ only in case or surrounding blanks name the same
      symbol: after the first is added the second is refused and the list keeps
      its length. */
  lemma SecondSpellingIsDuplicate(st: State, first: string, second: string)
    requires Normalize(first) == Normalize(second)
    ensures !Text.AllWhitespace(first) ==>
      AddStock(AddStock(st, first).state, second).outcome == DuplicateSymbol(Normalize(second))
    ensures AddStock(AddStock(st, first).state, second).state == AddStock(st, first).state
  {
    var mid := AddStock(st, first).state;
    if Text.AllWhitespace(first) {
      assert Text.AllWhitespace(second);
    } else {
      assert Normalize(first) in mid.symbols;
      assert !Text.AllWhitespace(second);
    }
  }

  /** The concrete case: "nvda" followed by "NVDA". */
  lemma NvdaThenNvdaIsDuplicate(st: State)
    ensures AddStock(AddStock(st, "nvda").state, "NVDA").outcome == DuplicateSymbol("NVDA")
  {
    NormalizeNvda();
    SecondSpellingIsDuplicate(st, "nvda", "NVDA");
  }

  lemma NormalizeNvda()
    ensures Normalize("nvda") == "NVDA" && Normalize("NVDA") == "NVDA"
  {
    Text.NvdaSpellings();
  }

  /** The suggestion path does not normalize: a lower-case symbol is stored as
      given, where the input box would have upper-cased it. */
  lemma SuggestedKeepsCase()
    ensures AddSuggested(Persist([]), "nvda").state.symbols == ["nvda"]
    ensures AddStock(Persist([]), "nvda").state.symbols == ["NVDA"]
  {
    NormalizeNvda();
  }

  /** `a` is `b` with some elements deleted, the rest in their original order. */
  ghost predicate SubsequenceOf(a: seq<string>, b: seq<string>)
    decreases |b|
  {
    || a == []
    || (b != [] && (SubsequenceOf(a, b[1..]) || (a[0] == b[0] && SubsequenceOf(a[1..], b[1..]))))
  }

  /** `list.filter(s => s !== symbol)`: every occurrence of `symbol` goes, every
      other element keeps its number of occurrences. */
  function Without(xs: seq<string>, symbol: string): (r: seq<string>)
    ensures symbol !in r
    ensures forall y :: y in r <==> y in xs && y != symbol
    ensures forall y :: y != symbol ==> multiset(r)[y] == multiset(xs)[y]
    ensures |r| == |xs| - multiset(xs)[symbol]
  {
    if xs == [] then []
    else
      assert xs == [xs[0]] + xs[1..];
      if xs[0] == symbol then Without(xs[1..], symbol)
      else [xs[0]] + Without(xs[1..], symbol)
  }

  /** Filtering keeps the survivors in their original relative order. */
  lemma {:induction false} WithoutIsSubsequence(xs: seq<string>, symbol: string)
    ensures SubsequenceOf(Without(xs, symbol), xs)
    decreases |xs|
  {
    if xs != [] {
      WithoutIsSubsequence(xs[1..], symbol);
      var w := Without(xs, symbol);
      if xs[0] != symbol && w != [] {
        assert w[0] == xs[0] && w[1..] == Without(xs[1..], symbol);
      }
    }
  }

  /** Filtering a list without duplicates leaves a list without duplicates. */
  lemma {:induction false} WithoutKeepsNoDuplicates(xs: seq<string>, symbol: string)
    requires NoDuplicates(xs)
    ensures NoDuplicates(Without(xs, symbol))
    decreases |xs|
  {
    if xs != [] {
      NoDuplicatesTail(xs);
      WithoutKeepsNoDuplicates(xs[1..], symbol);
      if xs[0] != symbol {
        var w := Without(xs[1..], symbol);
        assert xs[0] !in w;
        NoDuplicatesCons(xs[0], w);
      }
    }
  }

  /** A list without duplicates: its tail has none, and its head is not in the tail. */
  lemma NoDuplicatesTail(xs: seq<string>)
    requires xs != [] && NoDuplicates(xs)
    ensures NoDuplicates(xs[1..]) && xs[0] !in xs[1..]
  {
    forall i, j | 0 <= i < j < |xs[1..]| ensures xs[1..][i] != xs[1..][j] {
      assert xs[1..][i] == xs[i + 1] && xs[1..][j] == xs[j + 1];
    }
    forall j | 0 <= j < |xs[1..]| ensures xs[1..][j] != xs[0] {
      assert xs[1..][j] == xs[j + 1];
    }
  }

  /** Putting a new element in front of a list without duplicates. */
  lemma NoDuplicatesCons(x: string, w: seq<string>)
    requires x !in w && NoDuplicates(w)
    ensures NoDuplicates([x] + w)
  {
    var r := [x] + w;
    forall i, j | 0 <= i < j < |r| ensures r[i] != r[j] {
      if i == 0 {
        assert r[j] == w[j - 1];
      } else {
        assert r[i] == w[i - 1] && r[j] == w[j - 1];
      }
    }
  }

  /** `removeStock(symbol)`: nothing happens unless the user confirms; on
      confirmation every occurrence is filtered out and the list is stored,
      whether or not the symbol was present. */
  function Remove(st: State, symbol: string, confirmed: bool): (r: State)
    ensures !confirmed ==> r == st
    ensures confirmed ==>
      && Synced(r)
      && symbol !in r.symbols
      && (forall y :: y != symbol ==> multiset(r.symbols)[y] == multiset(st.symbols)[y])
      && SubsequenceOf(r.symbols, st.symbols)
    ensures NoDuplicates(st.symbols) ==> NoDuplicates(r.symbols)
  {
    if confirmed then
      WithoutIsSubsequence(st.symbols, symbol);
      assert NoDuplicates(st.symbols) ==> NoDuplicates(Without(st.symbols, symbol)) by {
        if NoDuplicates(st.symbols) {
          WithoutKeepsNoDuplicates(st.symbols, symbol);
        }
      }
      Persist(Without(st.symbols, symbol))
    else st
  }

  /** A user action on the watchlist. */
  datatype Action =
    | TypeSymbol(input: string)                 // the input box, Enter or the add button
    | PickSuggestion(symbol: string)            // a suggestion chip
    | AskRemove(symbol: string, confirmed: bool) // the × button and the dialog's answer

  /** The effect of one action on the watchlist and the store. */
  function Apply(st: State, a: Action): (r: State)
    ensures NoDuplicates(st.symbols) ==> NoDuplicates(r.symbols)
    ensures a.AskRemove? && !a.confirmed ==> r == st
    ensures a.TypeSymbol? ==> (r == st <==> Text.AllWhitespace(a.input) || Normalize(a.input) in st.symbols)
    ensures a.PickSuggestion? ==> (r == st <==> a.symbol in st.symbols)
    ensures a.AskRemove? && a.confirmed ==> Synced(r) && a.symbol !in r.symbols
    ensures !a.AskRemove? ==>
      var added := if a.TypeSymbol? then Normalize(a.input) else a.symbol;
      r == st || (Synced(r) && r.symbols == st.symbols + [added])
  {
    match a
    case TypeSymbol(input) => AddStock(st, input).state
    case PickSuggestion(symbol) => AddSuggested(st, symbol).state
    case AskRemove(symbol, confirmed) => Remove(st, symbol, confirmed)
  }

  /** Each action either leaves the state exactly as it was or leaves the store
      holding the list. */
  lemma ApplyUnchangedOrSynced(st: State, a: Action)
    ensures Apply(st, a) == st || Synced(Apply(st, a))
  {
  }

  predicate NoRemovals(actions: seq<Action>) {
    forall k :: 0 <= k < |actions| ==> !actions[k].AskRemove?
  }

  /** The actions applied one after another, first to last. Without a removal
      among them the list only grows at its end: the old list is a prefix of
      the new one. */
  function Run(st: State, actions: seq<Action>): (r: State)
    ensures NoRemovals(actions) ==> st.symbols <= r.symbols
    decreases |actions|
  {
    if actions == [] then st
    else
      var next := Apply(st, actions[0]);
      var r := Run(next, actions[1..]);
      if NoRemovals(actions) then
        assert NoRemovals(actions[1..]) by {
          forall k | 0 <= k < |actions[1..]| ensures !actions[1..][k].AskRemove? {
            assert actions[1..][k] == actions[k + 1];
          }
        }
        assert st.symbols <= next.symbols;
        r
      else r
  }

  /** Running two batches of actions in turn is running them as one batch. */
  lemma {:induction false} RunAppend(st: State, first: seq<Action>, second: seq<Action>)
    ensures Run(st, first + second) == Run(Run(st, first), second)
    decreases |first|
  {
    if first != [] {
      assert (first + second)[0] == first[0];
      assert (first + second)[1..] == first[1..] + second;
      RunAppend(Apply(st, first[0]), first[1..], second);
      calc {
        Run(st, first + second);
        Run(Apply(st, first[0]), first[1..] + second);
        Run(Run(Apply(st, first[0]), first[1..]), second);
        Run(Run(st, first), second);
      }
    } else {
      assert first + second == second;
    }
  }

  /** Over any sequence of actions, a list loaded without duplicates keeps none. */
  lemma {:induction false} RunKeepsNoDuplicates(st: State, actions: seq<Action>)
    requires NoDuplicates(st.symbols)
    ensures NoDuplicates(Run(st, actions).symbols)
    decreases |actions|
  {
    if actions != [] {
      RunKeepsNoDuplicates(Apply(st, actions[0]), actions[1..]);
    }
  }

  /** Over any sequence of actions, the store is either untouched or holds the
      in-memory list: it never holds a stale list once something was written. */
  lemma {:induction false} RunUnchangedOrSynced(st: State, actions: seq<Action>)
    ensures Run(st, actions) == st || Synced(Run(st, actions))
    decreases |actions|
  {
    if actions != [] {
      var next := Apply(st, actions[0]);
      ApplyUnchangedOrSynced(st, actions[0]);
      RunUnchangedOrSynced(next, actions[1..]);
      if Synced(next) {
        RunStaysSynced(next, actions[1..]);
      }
    }
  }

  /** Once the store holds the list, it goes on holding it. */
  lemma {:induction false} RunStaysSynced(st: State, actions: seq<Action>)
    requires Synced(st)
    ensures Synced(Run(st, actions))
    decreases |actions|
  {
    if actions != [] {
      ApplyUnchangedOrSynced(st, actions[0]);
      RunStaysSynced(Apply(st, actions[0]), actions[1..]);
    }
  }
}
